=== FILE: README.md ===
# Magento quote submission, modelled in Dafny

This project models the quote submission workflow of Magento's
`Magento\Quote\Model\QuoteManagement`. That workflow turns a shopping-cart
quote into an order. It covers:

- `inactivateQuote`;
- `deleteNominalItems`, which flags the visible nominal items of the quote as
  deleted;
- `submitNominalItems`, which validates, dispatches
  `sales_model_service_quote_submit_nominal_items`, inactivates and purges;
- `submit`, which returns "no order" when no visible item is left and
  otherwise calls `submitOrder`;
- `resolveItems`: the reordering loop as written, the parents-first order it
  is meant to produce, and the conversion loop that links each child order
  item to its parent's order item through a PHP associative array;
- `submitOrder`: purge, validate, populate the customer, build the order from
  addresses, payment, items, customer id and quote id, dispatch
  `submit_before`, place, then dispatch `submit_success` or `submit_failure`.

Every operation is a pure function. `SubmitNominalItems`, `Submit` and
`SubmitOrder` return a `Step`: the outcome (`Result`), the quote as the
operation leaves it, and a trace of `Action`s. An action is a validator call,
a customer-population call, an event dispatch or a placement call, in the
order they happen. The smaller operations return plain values:
`InactivateQuote` and `DeleteNominalItems` return the changed quote,
`PreparedQuote` returns the quote the order is built from, and `BuildOrder`
returns the order. Collaborators are fields of the `Env` datatype:

- the validator;
- the visibility filter behind `getAllVisibleItems`;
- `populateCustomerInfo`;
- the four converters;
- `OrderManagement::place`.

A PHP exception becomes an `Err`. A PHP fatal error (a method call on `null`)
becomes `None` or `NullDereference`.

Where the workflow's intended behaviour and the code disagree, the model
follows the code in three places and the intended behaviour in one:

- **A placement failure inside `submit`.** The intended behaviour is that the
  quote stays active. But `submit` calls `submitNominalItems`, and that already
  inactivates the quote at line 86. So a caller of `submit` sees an inactive
  quote after a failed placement (`SubmissionProperties.SubmitPlacementFailed`).
  Only `submitOrder` on its own leaves `isActive` untouched on failure
  (`SubmissionProperties.SubmitOrderPlacementFailed`).
- **A child whose parent is missing or not yet converted.** The intended
  behaviour is a conversion error that aborts the submission. The code converts such an
  item with `parent_item_id` `null` (lines 118-120), and the model does the
  same (`ItemResolver.UnconvertedParentGivesNull`).
- **Nominal items in the order.** The intended behaviour is that no nominal
  item reaches an order. The code purges only the visible nominal items
  (lines 71-75), while `resolveItems` reads `getAllItems` (line 106). So a
  live nominal item that the visibility filter hides is converted into the
  order. The model does the same (`SubmissionProperties.HiddenNominalItemConverted`).
- **The item order in `resolveItems`.** Here the model follows the intended
  behaviour. The reordering loop at lines 107-115 fails for any two or more
  items (see Findings). It is modelled as written
  (`ItemOrdering.ReorderAsWritten`, `ItemResolver.ResolveItemsAsWritten`), but
  the order is built with the corrected parents-first order
  (`ItemResolver.ResolveItems`). So with two or more live items, the
  order-building, placement, event-name and order-item properties describe
  the corrected program. The code as written fails inside `resolveItems`
  before `submit_before` is dispatched, after the quote was already purged
  and, through `submit`, inactivated.

Modules:

| module | file | contents |
|---|---|---|
| `Common` | `common.dfy` | `Option`, `Result`, `Error`, `Filter` |
| `Quotes` | `quotes.dfy` | quotes, items, addresses, payment, customer; `getAllItems`, `getAllVisibleItems` |
| `Orders` | `orders.dfy` | the order the builder produces |
| `Events` | `events.dfy` | event names, dispatched events, trace actions |
| `Collaborators` | `collaborators.dfy` | the `Env` of injected services |
| `PhpArray` | `php_array.dfy` | ordered associative arrays: `isset`, `$a[$k] = $v`, `array_values` |
| `ItemOrdering` | `item_ordering.dfy` | the reordering loop as written, and the corrected parents-first order |
| `ItemResolver` | `item_resolver.dfy` | the conversion loop and `resolveItems` |
| `QuoteManagement` | `quote_management.dfy` | the workflow operations |
| `SubmissionProperties` | `submission_properties.dfy` | properties that follow a path through the workflow |

## Model

| member | source | states |
|---|---|---|
| `Quotes.AllItems` | app/code/Magento/Quote/Model/QuoteManagement.php:106 | `getAllItems`, as `resolveItems` reads it: exactly the quote's items not marked deleted |
| `Quotes.AllVisibleItems` | app/code/Magento/Quote/Model/QuoteManagement.php:97 | `getAllVisibleItems`, as `submit` and `deleteNominalItems` read it: exactly the quote's items that are not deleted and that the visibility filter shows |
| `QuoteManagement.InactivateQuote` | app/code/Magento/Quote/Model/QuoteManagement.php:64-67 | the result is inactive and differs from the input in nothing but `isActive` |
| `QuoteManagement.PurgeNominal` | app/code/Magento/Quote/Model/QuoteManagement.php:71-75 | item by item: an item ends deleted exactly when it was deleted or is a visible nominal item; no other field of any item changes |
| `QuoteManagement.DeleteNominalItems` | app/code/Magento/Quote/Model/QuoteManagement.php:69-76 | same number of items; exactly the visible nominal items become deleted; every other item and every quote field is unchanged; afterwards no visible item is nominal |
| `SubmissionProperties.DeleteNominalItemsIdempotent` | app/code/Magento/Quote/Model/QuoteManagement.php:69-76 | purging an already purged quote changes nothing |
| `QuoteManagement.SubmitNominalItems` | app/code/Magento/Quote/Model/QuoteManagement.php:78-88 | validation comes first; if it fails, that error is returned, the quote is untouched and no event is dispatched; otherwise exactly one nominal-items event is dispatched with the incoming quote, and the quote ends inactive and purged with nothing else changed |
| `QuoteManagement.Submit` | app/code/Magento/Quote/Model/QuoteManagement.php:90-102 | validation comes first, and its error propagates unchanged with the quote untouched; after passing validation the quote always ends inactive; the outcome is "no order" exactly when validation passes and no visible item remains after the nominal submission |
| `SubmissionProperties.SubmitWithoutVisibleItems` | app/code/Magento/Quote/Model/QuoteManagement.php:97-100 | with nothing visible left: no order, the quote inactive, the second inactivation a no-op, only the nominal-items event dispatched (as `sales_model_service_quote_submit_nominal_items`), and nothing placed |
| `SubmissionProperties.RepurgeAfterNominalSubmitIsNoop` | app/code/Magento/Quote/Model/QuoteManagement.php:129 | the purge at the start of `submitOrder` changes nothing on a quote that `submitNominalItems` has already handled |
| `ItemOrdering.SwapIfParent` | app/code/Magento/Quote/Model/QuoteManagement.php:109-113 | the swap body only permutes: same length, same multiset of items |
| `ItemOrdering.InnerLoopAsWritten` | app/code/Magento/Quote/Model/QuoteManagement.php:108-114 | the inner loop as written; when it completes, it has only permuted the items (its failure is stated by `InnerLoopRunsOffTheEnd`) |
| `ItemOrdering.OuterLoopAsWritten` | app/code/Magento/Quote/Model/QuoteManagement.php:107-115 | the outer loop as written; when it completes, it has only permuted the items |
| `ItemOrdering.ReorderAsWritten` | app/code/Magento/Quote/Model/QuoteManagement.php:107-115 | the reordering as written; when it completes, it has only permuted the items (when it completes is stated by `ReorderAsWrittenFails`) |
| `ItemOrdering.InnerLoopRunsOffTheEnd` | app/code/Magento/Quote/Model/QuoteManagement.php:108-114 | once the inner loop's condition holds, `$j` runs to `count($quoteItems)`, where a `null` is dereferenced |
| `ItemOrdering.ReorderAsWrittenFails` | app/code/Magento/Quote/Model/QuoteManagement.php:107-115 | as written, reordering two or more items always dereferences `null` at offset `count($quoteItems)`; fewer than two are left alone |
| `ItemOrdering.BoundFixedKeepsChildFirst` | app/code/Magento/Quote/Model/QuoteManagement.php:109-113 | even with the inner bound corrected to `$j`, the loop does not reliably put parents first: for `[child, parent]` it leaves the child first |
| `ItemOrdering.InnerLoopBoundFixed` | app/code/Magento/Quote/Model/QuoteManagement.php:108-114 | the inner loop with its bound repaired to `$j < count($quoteItems) - $i - 1`; it keeps the number of items |
| `ItemOrdering.OuterLoopBoundFixed` | app/code/Magento/Quote/Model/QuoteManagement.php:107-115 | the outer loop over the repaired inner loop; it keeps the number of items |
| `ItemOrdering.ParentAmongIff` | app/code/Magento/Quote/Model/QuoteManagement.php:109 | the recursive parent test agrees with "some item of the pool has the parent's id" |
| `ItemOrdering.ParentsFirstOrder` | app/code/Magento/Quote/Model/QuoteManagement.php:107-115 | the corrected reordering; it has no contract of its own, and its guarantees are stated by `ParentsFirstOrderSound` and `ParentsFirstOrderKeepsOrderedInput` |
| `ItemOrdering.ParentsFirstOrderSound` | app/code/Magento/Quote/Model/QuoteManagement.php:107-115 | the corrected ordering is a permutation of the items; its ordered part lists every present parent before its children and depends on no blocked item; its blocked part consists only of items caught in parent cycles; distinct ids stay distinct |
| `ItemOrdering.ParentsFirstOrderKeepsOrderedInput` | app/code/Magento/Quote/Model/QuoteManagement.php:107-115 | items already in parents-first order are left exactly as they are, and nothing is blocked |
| `PhpArray.IndexOf` | app/code/Magento/Quote/Model/QuoteManagement.php:119-121 | the key's first position, if present; absent exactly when no entry has the key |
| `PhpArray.Get` | app/code/Magento/Quote/Model/QuoteManagement.php:119-120 | `isset` succeeds exactly when the key is present; with unique keys the value is that entry's value |
| `PhpArray.Set` | app/code/Magento/Quote/Model/QuoteManagement.php:121-122 | for an existing key, the length and every key's position stay the same; a new key is appended at the end; every entry under another key stays where it was, unchanged; unique keys stay unique; afterwards the key reads back the new value, and every other key reads as before |
| `PhpArray.Values` | app/code/Magento/Quote/Model/QuoteManagement.php:124 | the values in insertion order, one per entry |
| `ItemResolver.FirstIndexOf` | app/code/Magento/Quote/Model/QuoteManagement.php:119 | the first position holding the id, or none when no item has it |
| `ItemResolver.ConvertStep` | app/code/Magento/Quote/Model/QuoteManagement.php:117-123 | one loop iteration: the parent is looked up by id before the store, giving `null` when absent; afterwards the item's own key reads the item converted with that parent; every other key reads as before, and its entry keeps its position; the array grows by at most one entry; unique keys stay unique |
| `ItemResolver.ConversionLoop` | app/code/Magento/Quote/Model/QuoteManagement.php:116-123 | the `$orderItems` array after the loop: at most one entry per item, with unique keys; its contents are stated by `ConversionLoopTracksLinking` |
| `ItemResolver.ConvertItems` | app/code/Magento/Quote/Model/QuoteManagement.php:116-124 | the loop followed by `array_values`: at most one order item per quote item (by the body, fewer when ids repeat; the contract states only the bound); for distinct ids, `ConversionLoopMatchesLinking` states that it equals `LinkedItems` |
| `ItemResolver.LinkedItems` | app/code/Magento/Quote/Model/QuoteManagement.php:116-124 | the reference linking: one order item per quote item, each converted with the order item of the first earlier quote item carrying its parent id, or `null` |
| `ItemResolver.ConversionLoopTracksLinking` | app/code/Magento/Quote/Model/QuoteManagement.php:116-123 | with distinct ids, the array after the loop holds exactly one entry per item, keyed by the item's id, in item order, holding the reference linking |
| `ItemResolver.ConversionLoopMatchesLinking` | app/code/Magento/Quote/Model/QuoteManagement.php:116-124 | with distinct ids, the PHP loop followed by `array_values` equals the reference linking |
| `ItemResolver.LinkedToEarlierParent` | app/code/Magento/Quote/Model/QuoteManagement.php:119-122 | a child whose parent comes earlier is converted with that parent's order item |
| `ItemResolver.UnconvertedParentGivesNull` | app/code/Magento/Quote/Model/QuoteManagement.php:118-120 | an item with no parent id, or whose parent comes later or is absent, is converted with `null` |
| `ItemResolver.ConversionLoopLinksParents` | app/code/Magento/Quote/Model/QuoteManagement.php:116-124 | on parents-first items with distinct ids: one order item per quote item in the same order; every child linked to its parent's order item; `null` exactly where the parent is absent |
| `ItemResolver.ResolveItems` | app/code/Magento/Quote/Model/QuoteManagement.php:104-124 | `resolveItems` with the corrected order: at most one order item per live item; the linking is stated by `ResolveItemsLinksParents` and `ResolveOrderedItems` |
| `ItemResolver.ResolveItemsAsWritten` | app/code/Magento/Quote/Model/QuoteManagement.php:104-124 | `resolveItems` as written: it yields a result exactly when there are fewer than two items, and then at most one order item per item |
| `ItemResolver.ResolveItemsLinksParents` | app/code/Magento/Quote/Model/QuoteManagement.php:104-124 | with distinct ids, the corrected resolver yields one order item per quote item; every item of the parents-first part whose parent is in the quote is converted with that parent's order item, which precedes it (items caught in a parent cycle are not linked) |
| `ItemResolver.OrderedPartParentsPrecede` | app/code/Magento/Quote/Model/QuoteManagement.php:107-115 | in the corrected item order, the parent of any item in the parents-first part comes before that item |
| `ItemResolver.ResolveOrderedItems` | app/code/Magento/Quote/Model/QuoteManagement.php:104-124 | on items already parents-first, resolving is the conversion loop alone and equals the reference linking |
| `ItemResolver.ResolveItemsAsWrittenFails` | app/code/Magento/Quote/Model/QuoteManagement.php:104-124 | as written, `resolveItems` ends in a fatal error for two or more items; for fewer it agrees with the corrected resolver |
| `QuoteManagement.PreparedQuote` | app/code/Magento/Quote/Model/QuoteManagement.php:129-133 | the order is built from the purged quote: its items are exactly the purged quote's items, and no visible item is nominal; for a non-guest it carries the customer that `populateCustomerInfo` produces, and nothing else changes |
| `QuoteManagement.BuildOrder` | app/code/Magento/Quote/Model/QuoteManagement.php:134-163 | a virtual quote has no shipping address, and its order base and only address come from billing; otherwise the base comes from shipping, with addresses shipping then billing; payments are the one converted payment; items are the resolved live items; the customer id is present exactly when the quote has a customer, and is that customer's id; the quote id is the quote's; with the corrected item order |
| `QuoteManagement.SubmitOrder` | app/code/Magento/Quote/Model/QuoteManagement.php:127-190 | validation of the purged quote comes first, and its error propagates with no event; an inactive quote never becomes active; after a placed order the quote is inactive; after a failure `isActive` is as it was |
| `SubmissionProperties.HiddenNominalItemConverted` | app/code/Magento/Quote/Model/QuoteManagement.php:69-106 | a live nominal item that the visibility filter hides is not purged, and is among the items converted into the order |
| `SubmissionProperties.NominalItemsExcluded` | app/code/Magento/Quote/Model/QuoteManagement.php:129-159 | no item handed to the item conversion is a visible nominal item |
| `SubmissionProperties.SubmitOrderPlaced` | app/code/Magento/Quote/Model/QuoteManagement.php:164-179 | on successful placement: `submit_before` with the built order, then `submit_success` with the placed order, once each; placement is called with the built order just before the success event; the placed order is returned and the quote ends inactive; with the corrected item order |
| `SubmissionProperties.SubmitOrderPlacementFailed` | app/code/Magento/Quote/Model/QuoteManagement.php:164-188 | on a placement error: `submit_before`, then `submit_failure` with the same pre-placement order, once each; the same error is returned and `isActive` is unchanged |
| `SubmissionProperties.CustomerLinkage` | app/code/Magento/Quote/Model/QuoteManagement.php:131-163 | `populateCustomerInfo` is called exactly for non-guest quotes; the order's customer id is set exactly when the prepared quote has a customer, and equals that customer's id; the order's quote id is the quote's id |
| `SubmissionProperties.SubmitPlaced` | app/code/Magento/Quote/Model/QuoteManagement.php:90-101 | end to end, a successful placement dispatches the nominal-items, `submit_before` and `submit_success` events in that order, once each; it returns the placed order and leaves the quote inactive; with the corrected item order |
| `SubmissionProperties.SubmitPlacementFailed` | app/code/Magento/Quote/Model/QuoteManagement.php:86-101 | end to end, a failed placement dispatches the nominal-items, `submit_before` and `submit_failure` events in that order, once each, with the same pre-placement order; the placement's own error is returned, and the quote is inactive because of line 86; with the corrected item order |
| `Events.EventNames` | app/code/Magento/Quote/Model/QuoteManagement.php:81-186 | the names under which events go out: one name per event, in dispatch order |
| `SubmissionProperties.SubmitEventNames` | app/code/Magento/Quote/Model/QuoteManagement.php:81-186 | a submission that reaches placement sends out `sales_model_service_quote_submit_nominal_items`, then `sales_model_service_quote_submit_before`, then `sales_model_service_quote_submit_success` on success or `sales_model_service_quote_submit_failure` on failure; with the corrected item order |
| `SubmissionProperties.NoReactivation` | app/code/Magento/Quote/Model/QuoteManagement.php:64-67 | none of `submitNominalItems`, `submitOrder` and `submit` turns an inactive quote active |
| `SubmissionProperties.OrderItemsFollowQuoteItems` | app/code/Magento/Quote/Model/QuoteManagement.php:159 | for live items with distinct ids in parents-first order, the order's items are the reference linking of the quote's items, one per item; with the corrected item order |
| `SubmissionProperties.TwoItemLinked` | app/code/Magento/Quote/Model/QuoteManagement.php:116-124 | a parent then its child become the parent's order item and the child converted with it |
| `SubmissionProperties.TwoItemExample` | app/code/Magento/Quote/Model/QuoteManagement.php:134-163 | a non-virtual guest quote with an item and its child gives addresses shipping then billing, the parent converted without parent and the child with it, the quote id, and no customer id; with the corrected item order |

## Left out

- Collaborator internals are left out. This covers the validator's rules, the
  visibility filter of `getAllVisibleItems`, what `populateCustomerInfo` does
  beyond the customer it leaves on the quote, the four converters and
  `OrderManagement::place`. They are parameters of `Env`; the `Quote` class
  and the converters are not part of this model.
- The merging of `$orderData` into the converted address is left out. It
  happens inside the converter, which receives `$orderData` unchanged.
- The order builder is modelled as a value built in one step. Its mutable
  state carried between calls is left out. For example, a shipping address
  set for an earlier quote could survive into a later virtual order.
- `QuoteManagement.SubmitOrder` treats `populateCustomerInfo` (line 132) and
  the converters as total. In the code, an exception from any of them
  (lines 122, 132, 137, 141, 143, 150, 157) leaves `submitOrder` before
  `submit_before`, and no failure event is dispatched. Reached through
  `submit`, the quote has by then been inactivated and purged, and for a
  non-guest its customer populated. The model does not have this path, and
  `Error` has no conversion-error kind.
- `QuoteManagement.BuildOrder` takes its items from the corrected
  parents-first order, not from the reordering loop as written. With two or
  more live items, the code as written never reaches `submit_before`: it
  fails inside `resolveItems` at lines 108-109. The placement, event-name and
  order-item lemmas therefore describe the corrected program.
- `QuoteManagement.BuildOrder` assumes the converters never throw, so the
  order is always built.
- `QuoteManagement.SubmitOrder` assumes `place` does not mutate the order it
  receives. The `submit_failure` event carries the order as built. In the
  code, the `$order` passed at line 183 is the same object `place` received,
  so it carries any change `place` made before throwing.
- `QuoteManagement.SubmitOrder` treats event dispatch as never throwing.
  In the code, the `try` at lines 171-179 also wraps the inactivation
  (line 173) and the `submit_success` dispatch (line 174). If a success
  observer throws, the catch at line 180 dispatches `submit_failure` after
  `submit_success`. That event carries the placed order reassigned at line
  172, the quote is already inactive, and the error is rethrown. On that
  path `isActive` has changed despite the error, which the model's
  "`isActive` unchanged on failure" does not cover. In the same way, an
  exception from a nominal-items observer (line 81) propagates before the
  inactivation at line 86; the model has no such path.
- Event observers are left out. An event is recorded with the values passed
  to it. Observers that mutate the shared quote or order objects are not
  modelled.
- Concurrency is left out. The workflow is single-writer, and the model is
  sequential.
- The `try`/`catch` at lines 92-96 rethrows unchanged. It is modelled as
  plain propagation.
- PHP's loose `==` between ids is left out. That covers, for example, `null`
  or string ids compared with integers at line 109. Ids are natural numbers.
- A quote item without an id is left out. Every item has one.
- `ItemResolver.ConversionLoopMatchesLinking` and the lemmas built on it
  assume distinct item ids. With duplicate ids, PHP overwrites the earlier
  array entry in place; `PhpArray.Set` models that, but the model proves no
  property of that case.
- `ItemResolver.ResolveItems` orders the items parents-first before
  converting, rather than using the reordering loop as written. Items whose
  parents form a cycle are appended unchanged after the ordered ones (see
  Findings).
- `QuoteManagement.SubmitOrder` ends the events with `submit_failure`. The
  exception that follows it is the returned `Err`; no further action is
  recorded.

## Findings

| source | as written | input that shows it | evidently intended | confidence | as-written member | corrected member |
|---|---|---|---|---|---|---|
| app/code/Magento/Quote/Model/QuoteManagement.php:107-115 | the inner loop's condition `$i < count($quoteItems) - $i - 1` never mentions `$j`, so `$j` runs past the end; `$quoteItems[$j]` is then `null`, and `getParentItemId()` on it is a fatal error. Even with the bound corrected, the loop does not reliably put parents first: for `[child, parent]` it leaves the child first. | any quote with two live items, for example an item and its child: the first pass reads `$quoteItems[2]` | items reordered so that every parent precedes its children, and the conversion loop then links each child to its parent's order item | not executed | `ItemOrdering.ReorderAsWrittenFails` | `ItemOrdering.ParentsFirstOrderSound` |

=== FILE: collaborators.dfy ===
/** The collaborators injected into the workflow, each an uninterpreted function. */
module Collaborators {
  import opened Common
  import opened Quotes
  import opened Orders

  /** `shown`: the part of `Quote::getAllVisibleItems` not determined by the
      deleted flag. `validate`: `QuoteValidator::validateBeforeSubmit`, `Some(e)`
      when it throws `e`. `populateCustomerInfo`: the customer that
      `CustomerManagement::populateCustomerInfo` leaves on the quote.
      `place`: `OrderManagement::place`, the placed order or the thrown error.
      The remaining four are the converters, each given the override array the
      workflow passes to it. */
  datatype Env = Env(
    shown: QuoteItem -> bool,
    validate: Quote -> Option<Error>,
    populateCustomerInfo: Quote -> Option<Customer>,
    addressToOrder: (Address, OrderData) -> OrderFields,
    addressToOrderAddress: (Address, AddressType) -> OrderAddress,
    itemToOrderItem: (QuoteItem, Option<OrderItem>) -> OrderItem,
    paymentToOrderPayment: Payment -> OrderPayment,
    place: Order -> Result<Order>)
}

=== FILE: common.dfy ===
/** Failure-carrying datatypes shared by the whole model, and a sequence filter. */
module Common {

  /** A value that may be absent; `None` stands for PHP's `null`. */
  datatype Option<+T> = None | Some(value: T)

  /** The exceptions a collaborator may throw into the submission workflow.
      The workflow never creates one itself: it only propagates them. */
  datatype Error =
    | ValidationError(message: string)
    | PlacementError(message: string)

  /** Either a normal return value or a propagated exception. */
  datatype Result<+T> = Ok(value: T) | Err(error: Error)

  /** The elements of `s` that satisfy `keep`, in their original order. */
  function Filter<T(!new)>(s: seq<T>, keep: T -> bool): (r: seq<T>)
    ensures |r| <= |s|
    ensures forall x :: x in r <==> x in s && keep(x)
  {
    if |s| == 0 then []
    else (if keep(s[0]) then [s[0]] else []) + Filter(s[1..], keep)
  }
}

=== FILE: events.dfy ===
/** The lifecycle events the workflow dispatches and the trace of its
    interactions with collaborators. */
module Events {
  import opened Common
  import opened Quotes
  import opened Orders

  /** The four event names the workflow dispatches, as a closed set. */
  datatype EventName = NominalItems | SubmitBefore | SubmitSuccess | SubmitFailure
  {
    function Name(): string
    {
      match this
      case NominalItems => "sales_model_service_quote_submit_nominal_items"
      case SubmitBefore => "sales_model_service_quote_submit_before"
      case SubmitSuccess => "sales_model_service_quote_submit_success"
      case SubmitFailure => "sales_model_service_quote_submit_failure"
    }
  }

  /** A dispatched event: its name and payload. The nominal-items event carries
      only the quote; the other three carry the order as well. The quote is the
      state of the quote at the moment of dispatch. */
  datatype Event = Event(name: EventName, quote: Quote, order: Option<Order>)

  /** One observable interaction of the workflow, in the order it happens. */
  datatype Action =
    | Validate(validated: Quote)
    | PopulateCustomerInfo(populated: Quote)
    | Dispatch(event: Event)
    | Place(placed: Order)

  /** The events of a trace, in dispatch order. */
  function Dispatched(trace: seq<Action>): (r: seq<Event>)
    ensures |r| <= |trace|
    ensures forall e :: e in r <==> Dispatch(e) in trace
  {
    if |trace| == 0 then []
    else
      (if trace[0].Dispatch? then [trace[0].event] else []) + Dispatched(trace[1..])
  }

  /** Dispatching distributes over concatenated traces. */
  lemma {:induction false} DispatchedAppend(a: seq<Action>, b: seq<Action>)
    ensures Dispatched(a + b) == Dispatched(a) + Dispatched(b)
    decreases |a|
  {
    if |a| == 0 {
      assert a + b == b;
    } else {
      assert (a + b)[1..] == a[1..] + b;
      DispatchedAppend(a[1..], b);
    }
  }

  /** The names under which a sequence of events goes out, in order. */
  function EventNames(events: seq<Event>): (r: seq<string>)
    ensures |r| == |events|
    ensures forall i :: 0 <= i < |events| ==> r[i] == events[i].name.Name()
  {
    seq(|events|, i requires 0 <= i < |events| => events[i].name.Name())
  }
}

=== FILE: item_ordering.dfy ===
/** The reordering step of `resolveItems`: as written (lines 107-115), and the
    parents-before-children order it evidently means to produce. */
module ItemOrdering {
  import opened Common
  import opened Quotes

  /** Item ids are unique, as database keys are. */
  predicate DistinctIds(items: seq<QuoteItem>)
  {
    forall i, j :: 0 <= i < j < |items| ==> items[i].id != items[j].id
  }

  /** Every parent that is present in the sequence comes before its children. */
  predicate ParentsFirst(items: seq<QuoteItem>)
  {
    forall k, j :: 0 <= k < |items| && 0 <= j < |items| && items[k].parentId == Some(items[j].id) ==> j < k
  }

  // ---------------------------------------------------------------------------
  // The nested loop as written
  // ---------------------------------------------------------------------------

  /** How the nested loop ends: normally, or by calling `getParentItemId()` on
      the `null` that reading `$quoteItems[$offset]` past the end yields. */
  datatype LoopRun = Completed(items: seq<QuoteItem>) | NullDereference(offset: nat)

  /** The body at lines 109-113: swap positions `i` and `j` when item `i` is
      the parent of item `j`. */
  function SwapIfParent(items: seq<QuoteItem>, i: nat, j: nat): (r: seq<QuoteItem>)
    requires i < |items| && j < |items|
    ensures |r| == |items|
    ensures multiset(r) == multiset(items)
  {
    if items[j].parentId == Some(items[i].id) then items[i := items[j]][j := items[i]]
    else items
  }

  /** The inner loop at line 108: its condition `$i < count - $i - 1` never
      mentions `$j`. */
  function InnerLoopAsWritten(items: seq<QuoteItem>, i: nat, j: nat): (r: LoopRun)
    requires i < |items|
    ensures r.Completed? ==> |r.items| == |items|
    ensures r.Completed? ==> multiset(r.items) == multiset(items)
    decreases |items| - j
  {
    if !(i < |items| - i - 1) then Completed(items)
    else if j >= |items| then NullDereference(j)
    else InnerLoopAsWritten(SwapIfParent(items, i, j), i, j + 1)
  }

  /** The outer loop at line 107. */
  function OuterLoopAsWritten(items: seq<QuoteItem>, i: nat): (r: LoopRun)
    ensures r.Completed? ==> |r.items| == |items|
    ensures r.Completed? ==> multiset(r.items) == multiset(items)
    decreases |items| - i
  {
    if !(i < |items| - 1) then Completed(items)
    else
      match InnerLoopAsWritten(items, i, 0)
      case NullDereference(offset) => NullDereference(offset)
      case Completed(next) => OuterLoopAsWritten(next, i + 1)
  }

  /** Lines 107-115: when the loops complete, they have only permuted the
      items. */
  function ReorderAsWritten(items: seq<QuoteItem>): (r: LoopRun)
    ensures r.Completed? ==> |r.items| == |items|
    ensures r.Completed? ==> multiset(r.items) == multiset(items)
  {
    OuterLoopAsWritten(items, 0)
  }

  /** Once the inner condition holds, the inner loop runs `$j` up to the end of
      the array and dereferences the missing element there. */
  lemma {:induction false} InnerLoopRunsOffTheEnd(items: seq<QuoteItem>, i: nat, j: nat)
    requires i < |items| - i - 1 && j <= |items|
    ensures InnerLoopAsWritten(items, i, j) == NullDereference(|items|)
    decreases |items| - j
  {
    if j < |items| {
      InnerLoopRunsOffTheEnd(SwapIfParent(items, i, j), i, j + 1);
    }
  }

  /** As written, reordering any two or more items fails at offset
      `count($quoteItems)`, and fewer than two are left as they are. */
  lemma ReorderAsWrittenFails(items: seq<QuoteItem>)
    ensures |items| >= 2 ==> ReorderAsWritten(items) == NullDereference(|items|)
    ensures |items| < 2 ==> ReorderAsWritten(items) == Completed(items)
  {
    if |items| >= 2 {
      InnerLoopRunsOffTheEnd(items, 0, 0);
    }
  }

  /** The inner loop with the bound presumably meant, `$j < count - $i - 1`. */
  function InnerLoopBoundFixed(items: seq<QuoteItem>, i: nat, j: nat): (r: seq<QuoteItem>)
    requires i < |items|
    ensures |r| == |items|
    decreases |items| - j
  {
    if j < |items| - i - 1 then InnerLoopBoundFixed(SwapIfParent(items, i, j), i, j + 1)
    else items
  }

  function OuterLoopBoundFixed(items: seq<QuoteItem>, i: nat): (r: seq<QuoteItem>)
    ensures |r| == |items|
    decreases |items| - i
  {
    if i < |items| - 1 then OuterLoopBoundFixed(InnerLoopBoundFixed(items, i, 0), i + 1)
    else items
  }

  /** Even with the bound repaired, the loop does not reliably put parents
      first: for `[child, parent]` it leaves the child first. */
  lemma BoundFixedKeepsChildFirst()
    ensures var parent := QuoteItem(1, None, false, false, "bundle");
            var child := QuoteItem(2, Some(1), false, false, "option");
            && !ParentsFirst([child, parent])
            && OuterLoopBoundFixed([child, parent], 0) == [child, parent]
  {
  }

  // ---------------------------------------------------------------------------
  // The intended order
  // ---------------------------------------------------------------------------

  /** The item's parent is one of `pool`. Written as a recursive scan so
      that the solver unfolds it only on demand; `ParentAmongIff` gives the
      quantified reading. */
  predicate ParentAmong(pool: seq<QuoteItem>, item: QuoteItem)
    decreases |pool|
  {
    |pool| > 0 && (item.parentId == Some(pool[0].id) || ParentAmong(pool[1..], item))
  }

  lemma {:induction false} ParentAmongIff(pool: seq<QuoteItem>, item: QuoteItem)
    ensures ParentAmong(pool, item) <==> exists j :: 0 <= j < |pool| && item.parentId == Some(pool[j].id)
    decreases |pool|
  {
    if |pool| > 0 {
      ParentAmongIff(pool[1..], item);
      if !ParentAmong(pool, item) {
        forall j | 0 <= j < |pool|
          ensures item.parentId != Some(pool[j].id)
        {
          if j > 0 {
            assert pool[j] == pool[1..][j - 1];
          }
        }
      } else if item.parentId != Some(pool[0].id) {
        var j :| 0 <= j < |pool[1..]| && item.parentId == Some(pool[1..][j].id);
        assert pool[j + 1] == pool[1..][j];
      }
    }
  }

  /** An item may be emitted when its parent is not among the items still
      waiting. */
  predicate Ready(waiting: seq<QuoteItem>, item: QuoteItem)
  {
    !ParentAmong(waiting, item)
  }

  /** Every item's parent is itself one of the items: nothing in `items` can
      ever become ready, since following parents only ever leads to a cycle. */
  predicate ParentClosed(items: seq<QuoteItem>)
  {
    forall k :: 0 <= k < |items| ==> ParentAmong(items, items[k])
  }

  /** No item of `ordered` has its parent in `blocked`. */
  predicate Separated(ordered: seq<QuoteItem>, blocked: seq<QuoteItem>)
  {
    forall k :: 0 <= k < |ordered| ==> !ParentAmong(blocked, ordered[k])
  }

  /** The first ready item at or after position `from`. */
  function FirstReadyFrom(items: seq<QuoteItem>, from: nat): (r: Option<nat>)
    requires from <= |items|
    ensures r.Some? ==> from <= r.value < |items| && Ready(items, items[r.value])
    ensures r.Some? ==> forall i :: from <= i < r.value ==> !Ready(items, items[i])
    ensures r.None? ==> forall i :: from <= i < |items| ==> !Ready(items, items[i])
    decreases |items| - from
  {
    if from == |items| then None
    else if Ready(items, items[from]) then Some(from)
    else FirstReadyFrom(items, from + 1)
  }

  /** The outcome of ordering: the items in parents-first order, then the
      items that could never be emitted because their parents form a cycle. */
  datatype Ordering = Ordering(ordered: seq<QuoteItem>, blocked: seq<QuoteItem>)

  /** Removes position `k`. */
  function RemoveAt(items: seq<QuoteItem>, k: nat): (r: seq<QuoteItem>)
    requires k < |items|
    ensures |r| == |items| - 1
    ensures multiset(r) + multiset{items[k]} == multiset(items)
    ensures forall x :: x in r ==> x in items
  {
    assert items == items[..k] + [items[k]] + items[k + 1..];
    items[..k] + items[k + 1..]
  }

  /** Repeatedly emits the first ready item, keeping ties in quote order.
      Its guarantees are stated by `ParentsFirstOrderSound`. */
  function ParentsFirstOrder(items: seq<QuoteItem>): Ordering
    decreases |items|
  {
    match FirstReadyFrom(items, 0)
    case None => Ordering([], items)
    case Some(k) =>
      var rest := ParentsFirstOrder(RemoveAt(items, k));
      Ordering([items[k]] + rest.ordered, rest.blocked)
  }

  /** What ordering guarantees: a permutation of the items, whose ordered part
      lists every parent before its children and never depends on a blocked
      item, whose blocked part is closed under taking parents (so it is empty
      for an acyclic forest), and which keeps ids distinct. */
  ghost predicate SoundOrdering(items: seq<QuoteItem>, r: Ordering)
  {
    && multiset(r.ordered + r.blocked) == multiset(items)
    && ParentsFirst(r.ordered)
    && Separated(r.ordered, r.blocked)
    && ParentClosed(r.blocked)
    && (DistinctIds(items) ==> DistinctIds(r.ordered + r.blocked))
  }

  lemma {:induction false} ParentsFirstOrderSound(items: seq<QuoteItem>)
    ensures SoundOrdering(items, ParentsFirstOrder(items))
    decreases |items|
  {
    match FirstReadyFrom(items, 0)
    case None =>
      forall k | 0 <= k < |items|
        ensures ParentAmong(items, items[k])
      {
        assert !Ready(items, items[k]);
      }
    case Some(k) =>
      var rest := ParentsFirstOrder(RemoveAt(items, k));
      ParentsFirstOrderSound(RemoveAt(items, k));
      OrderStepKeepsProperties(items, k, rest);
      DistinctStep(items, k, rest);
      OrderUnfold(items, k);
  }

  /** The induction step of `ParentsFirstOrder`. */
  lemma OrderStepKeepsProperties(items: seq<QuoteItem>, k: nat, rest: Ordering)
    requires k < |items| && Ready(items, items[k])
    requires multiset(rest.ordered + rest.blocked) == multiset(RemoveAt(items, k))
    requires ParentsFirst(rest.ordered)
    requires Separated(rest.ordered, rest.blocked)
    ensures var o := [items[k]] + rest.ordered;
      && multiset(o + rest.blocked) == multiset(items)
      && ParentsFirst(o)
      && Separated(o, rest.blocked)
  {
    var x := items[k];
    var o := [x] + rest.ordered;
    assert o + rest.blocked == [x] + (rest.ordered + rest.blocked);
    ParentAmongIff(items, x);
    forall y | y in rest.ordered + rest.blocked
      ensures x.parentId != Some(y.id)
    {
      assert y in multiset(RemoveAt(items, k));
      assert y in items;
      var i :| 0 <= i < |items| && items[i] == y;
    }
    forall a, b | 0 <= a < |o| && 0 <= b < |o| && o[a].parentId == Some(o[b].id)
      ensures b < a
    {
      if a > 0 && b > 0 {
        assert rest.ordered[a - 1].parentId == Some(rest.ordered[b - 1].id);
      }
    }
    forall a | 0 <= a < |o|
      ensures !ParentAmong(rest.blocked, o[a])
    {
      if a > 0 {
        assert o[a] == rest.ordered[a - 1];
      } else {
        ParentAmongIff(rest.blocked, x);
        forall b | 0 <= b < |rest.blocked|
          ensures x.parentId != Some(rest.blocked[b].id)
        {
          assert rest.blocked[b] in rest.ordered + rest.blocked;
        }
      }
    }
  }

  /** One unfolding of `ParentsFirstOrder` when item `k` is emitted first. */
  lemma OrderUnfold(items: seq<QuoteItem>, k: nat)
    requires FirstReadyFrom(items, 0) == Some(k)
    ensures ParentsFirstOrder(items).ordered == [items[k]] + ParentsFirstOrder(RemoveAt(items, k)).ordered
    ensures ParentsFirstOrder(items).blocked == ParentsFirstOrder(RemoveAt(items, k)).blocked
  {
  }

  /** In a parents-first sequence the first item is ready, and the rest is
      again parents-first. */
  lemma ParentsFirstHead(items: seq<QuoteItem>)
    requires |items| > 0 && ParentsFirst(items)
    ensures FirstReadyFrom(items, 0) == Some(0)
    ensures RemoveAt(items, 0) == items[1..]
    ensures ParentsFirst(items[1..])
  {
    ParentAmongIff(items, items[0]);
    assert Ready(items, items[0]);
    var rest := items[1..];
    forall a, b | 0 <= a < |rest| && 0 <= b < |rest| && rest[a].parentId == Some(rest[b].id)
      ensures b < a
    {
      assert items[a + 1].parentId == Some(items[b + 1].id);
    }
  }

  /** The induction step of `ParentsFirstOrderKeepsOrderedInput`. */
  lemma KeepsOrderedInputStep(items: seq<QuoteItem>)
    requires |items| > 0 && ParentsFirst(items)
    requires ParentsFirstOrder(items[1..]).ordered == items[1..]
    requires ParentsFirstOrder(items[1..]).blocked == []
    ensures ParentsFirstOrder(items).ordered == items
    ensures ParentsFirstOrder(items).blocked == []
  {
    ParentsFirstHead(items);
    OrderUnfold(items, 0);
    assert [items[0]] + items[1..] == items;
  }

  /** Items already in parents-first order are left exactly as they are. */
  lemma {:induction false} ParentsFirstOrderKeepsOrderedInput(items: seq<QuoteItem>)
    requires ParentsFirst(items)
    ensures ParentsFirstOrder(items).ordered == items
    ensures ParentsFirstOrder(items).blocked == []
    decreases |items|
  {
    if |items| > 0 {
      ParentsFirstHead(items);
      ParentsFirstOrderKeepsOrderedInput(items[1..]);
      KeepsOrderedInputStep(items);
    }
  }

  /** Removing an item keeps the remaining ids distinct. */
  lemma RemoveAtKeepsDistinct(items: seq<QuoteItem>, k: nat)
    requires k < |items| && DistinctIds(items)
    ensures DistinctIds(RemoveAt(items, k))
    ensures forall y :: y in RemoveAt(items, k) ==> y.id != items[k].id
  {
  }

  /** Prepending an item whose id no other item has keeps ids distinct. */
  lemma PrependKeepsDistinct(x: QuoteItem, tail: seq<QuoteItem>)
    requires DistinctIds(tail)
    requires forall y :: y in tail ==> y.id != x.id
    ensures DistinctIds([x] + tail)
  {
  }

  /** Sequences with the same multiset have the same members. */
  lemma MultisetMembers(a: seq<QuoteItem>, b: seq<QuoteItem>)
    requires multiset(a) == multiset(b)
    ensures forall y :: y in a ==> y in b
  {
    forall y | y in a
      ensures y in b
    {
      assert y in multiset(a);
    }
  }

  /** The distinctness step of `ParentsFirstOrder`: the emitted item's id is
      not among the ids of the items still to be ordered. */
  lemma DistinctStep(items: seq<QuoteItem>, k: nat, rest: Ordering)
    requires k < |items|
    requires multiset(rest.ordered + rest.blocked) == multiset(RemoveAt(items, k))
    requires DistinctIds(RemoveAt(items, k)) ==> DistinctIds(rest.ordered + rest.blocked)
    ensures DistinctIds(items) ==> DistinctIds([items[k]] + rest.ordered + rest.blocked)
  {
    if !DistinctIds(items) {
      return;
    }
    var tail := rest.ordered + rest.blocked;
    RemoveAtKeepsDistinct(items, k);
    MultisetMembers(tail, RemoveAt(items, k));
    PrependKeepsDistinct(items[k], tail);
    assert [items[k]] + rest.ordered + rest.blocked == [items[k]] + tail;
  }

  /** The items in the order the conversion loop should visit them. */
  function OrderedItems(items: seq<QuoteItem>): seq<QuoteItem>
  {
    ParentsFirstOrder(items).ordered + ParentsFirstOrder(items).blocked
  }
}

=== FILE: item_resolver.dfy ===
/** `resolveItems`: turning the quote's item forest into order items, each
    child linked to the order item converted from its parent. */
module ItemResolver {
  import opened Common
  import opened Quotes
  import opened Orders
  import opened ItemOrdering
  import PhpArray

  /** `ToOrderItem::convert`, given the `parent_item_id` override. */
  type ItemConverter = (QuoteItem, Option<OrderItem>) -> OrderItem

  /** The first position holding an item with id `id`. */
  function FirstIndexOf(items: seq<QuoteItem>, id: ItemId): (r: Option<nat>)
    ensures r.Some? ==> r.value < |items| && items[r.value].id == id
    ensures r.Some? ==> forall i :: 0 <= i < r.value ==> items[i].id != id
    ensures r.None? ==> forall i :: 0 <= i < |items| ==> items[i].id != id
  {
    if |items| == 0 then None
    else if items[0].id == id then Some(0)
    else
      match FirstIndexOf(items[1..], id)
      case None => None
      case Some(i) => Some(i + 1)
  }

  // ---------------------------------------------------------------------------
  // The conversion loop, with PHP array semantics
  // ---------------------------------------------------------------------------

  type Converted = seq<PhpArray.Entry<ItemId, OrderItem>>

  /** One iteration: look the parent up among the items converted so far and
      store the converted item under its own id. A missing parent id or one not
      (yet) converted yields `null`. */
  function ConvertStep(conv: ItemConverter, acc: Converted, item: QuoteItem): (r: Converted)
    ensures PhpArray.Get(r, item.id) ==
      Some(conv(item, if item.parentId.Some? then PhpArray.Get(acc, item.parentId.value) else None))
    ensures forall k :: k != item.id ==> PhpArray.Get(r, k) == PhpArray.Get(acc, k)
    ensures |acc| <= |r| <= |acc| + 1
    ensures forall i :: 0 <= i < |acc| && acc[i].key != item.id ==> r[i] == acc[i]
    ensures PhpArray.UniqueKeys(acc) ==> PhpArray.UniqueKeys(r)
  {
    var parent := match item.parentId
      case None => None
      case Some(p) => PhpArray.Get(acc, p);
    PhpArray.Set(acc, item.id, conv(item, parent))
  }

  /** The `$orderItems` array after the loop has visited every item. */
  function ConversionLoop(conv: ItemConverter, items: seq<QuoteItem>): (r: Converted)
    ensures |r| <= |items|
    ensures PhpArray.UniqueKeys(r)
    decreases |items|
  {
    if |items| == 0 then []
    else ConvertStep(conv, ConversionLoop(conv, items[..|items| - 1]), items[|items| - 1])
  }

  /** `array_values($orderItems)`. */
  function ConvertItems(conv: ItemConverter, items: seq<QuoteItem>): (r: seq<OrderItem>)
    ensures |r| <= |items|
  {
    PhpArray.Values(ConversionLoop(conv, items))
  }

  // ---------------------------------------------------------------------------
  // Reference: position-based linking
  // ---------------------------------------------------------------------------

  /** The order item converted from the first earlier item whose id is
      `parentId`, or `None`. */
  function ParentRef(prior: seq<QuoteItem>, converted: seq<OrderItem>, parentId: Option<ItemId>): Option<OrderItem>
    requires |converted| == |prior|
  {
    match parentId
    case None => None
    case Some(p) =>
      match FirstIndexOf(prior, p)
      case None => None
      case Some(j) => Some(converted[j])
  }

  /** One order item per quote item, in the same order, each converted with
      the order item of its parent among the items before it. */
  function LinkedItems(conv: ItemConverter, items: seq<QuoteItem>): (r: seq<OrderItem>)
    decreases |items|
    ensures |r| == |items|
    ensures forall k :: 0 <= k < |items| ==>
      r[k] == conv(items[k], ParentRef(items[..k], r[..k], items[k].parentId))
  {
    if |items| == 0 then []
    else
      var prior := items[..|items| - 1];
      var pre := LinkedItems(conv, prior);
      var r := pre + [conv(items[|items| - 1], ParentRef(prior, pre, items[|items| - 1].parentId))];
      assert forall k :: 0 <= k < |prior| ==> prior[..k] == items[..k] && pre[..k] == r[..k];
      assert r[..|prior|] == pre;
      r
  }

  /** The PHP array and the position-based linking agree entry by entry. */
  ghost predicate Tracks(acc: Converted, items: seq<QuoteItem>, linked: seq<OrderItem>)
  {
    && |acc| == |items| == |linked|
    && forall k :: 0 <= k < |items| ==> acc[k] == PhpArray.Entry(items[k].id, linked[k])
  }

  /** While the array tracks the linking, `isset` lookups of a parent id find
      the same order item as the position-based parent reference. */
  lemma ParentLookupAgrees(acc: Converted, prior: seq<QuoteItem>, pre: seq<OrderItem>, parentId: Option<ItemId>)
    requires DistinctIds(prior) && Tracks(acc, prior, pre)
    ensures (match parentId case None => None case Some(p) => PhpArray.Get(acc, p))
         == ParentRef(prior, pre, parentId)
  {
  }

  /** With distinct ids, the PHP loop stores exactly one entry per item, keyed
      by the item's id, holding the position-based linking. */
  lemma {:induction false} ConversionLoopTracksLinking(conv: ItemConverter, items: seq<QuoteItem>)
    requires DistinctIds(items)
    ensures Tracks(ConversionLoop(conv, items), items, LinkedItems(conv, items))
    decreases |items|
  {
    if |items| > 0 {
      var n := |items| - 1;
      var prior := items[..n];
      var x := items[n];
      var acc := ConversionLoop(conv, prior);
      var pre := LinkedItems(conv, prior);
      assert DistinctIds(prior);
      ConversionLoopTracksLinking(conv, prior);
      assert !PhpArray.HasKey(acc, x.id) by {
        forall i | 0 <= i < |acc|
          ensures acc[i].key != x.id
        {
          assert acc[i].key == items[i].id;
        }
      }
      ParentLookupAgrees(acc, prior, pre, x.parentId);
      var converted := conv(x, ParentRef(prior, pre, x.parentId));
      assert ConversionLoop(conv, items) == acc + [PhpArray.Entry(x.id, converted)];
      assert LinkedItems(conv, items) == pre + [converted];
    }
  }

  /** The conversion loop yields the position-based linking. */
  lemma ConversionLoopMatchesLinking(conv: ItemConverter, items: seq<QuoteItem>)
    requires DistinctIds(items)
    ensures ConvertItems(conv, items) == LinkedItems(conv, items)
  {
    ConversionLoopTracksLinking(conv, items);
  }

  /** A child whose parent was converted earlier is converted with that
      parent's order item as `parent_item_id`. */
  lemma LinkedToEarlierParent(conv: ItemConverter, items: seq<QuoteItem>)
    requires DistinctIds(items)
    ensures forall k, j :: 0 <= j < k < |items| && items[k].parentId == Some(items[j].id) ==>
      LinkedItems(conv, items)[k] == conv(items[k], Some(LinkedItems(conv, items)[j]))
  {
    var r := LinkedItems(conv, items);
    forall k, j | 0 <= j < k < |items| && items[k].parentId == Some(items[j].id)
      ensures r[k] == conv(items[k], Some(r[j]))
    {
      var found := FirstIndexOf(items[..k], items[j].id);
      assert items[..k][j].id == items[j].id;
      assert found == Some(j);
    }
  }

  /** An item with no parent id, or whose parent does not come before it, is
      converted with `null` as `parent_item_id`. */
  lemma UnconvertedParentGivesNull(conv: ItemConverter, items: seq<QuoteItem>)
    ensures forall k :: 0 <= k < |items| && (forall j :: 0 <= j < k ==> items[k].parentId != Some(items[j].id)) ==>
      LinkedItems(conv, items)[k] == conv(items[k], None)
  {
  }

  /** The three guarantees of the conversion loop on a parents-first sequence
      of distinct ids: one order item per quote item in the same order, each
      child linked to its parent's order item, and `null` for every item whose
      parent is absent. */
  lemma ConversionLoopLinksParents(conv: ItemConverter, items: seq<QuoteItem>)
    requires DistinctIds(items) && ParentsFirst(items)
    ensures |ConvertItems(conv, items)| == |items|
    ensures forall k, j :: 0 <= k < |items| && 0 <= j < |items| && items[k].parentId == Some(items[j].id) ==>
      ConvertItems(conv, items)[k] == conv(items[k], Some(ConvertItems(conv, items)[j]))
    ensures forall k :: 0 <= k < |items| && (forall j :: 0 <= j < |items| ==> items[k].parentId != Some(items[j].id)) ==>
      ConvertItems(conv, items)[k] == conv(items[k], None)
  {
    ConversionLoopMatchesLinking(conv, items);
    LinkedToEarlierParent(conv, items);
    UnconvertedParentGivesNull(conv, items);
  }

  // ---------------------------------------------------------------------------
  // resolveItems
  // ---------------------------------------------------------------------------

  /** `resolveItems` with the reordering step replaced by the parents-first
      order it is meant to establish (see `ItemOrdering`). */
  function ResolveItems(conv: ItemConverter, items: seq<QuoteItem>): (r: seq<OrderItem>)
    ensures |r| <= |items|
  {
    ParentsFirstOrderSound(items);
    assert |OrderedItems(items)| == |items| by {
      assert |multiset(OrderedItems(items))| == |multiset(items)|;
    }
    ConvertItems(conv, OrderedItems(items))
  }

  /** `resolveItems` exactly as written: the reordering loop, then conversion.
      `None` is the fatal error that ends the request. */
  function ResolveItemsAsWritten(conv: ItemConverter, items: seq<QuoteItem>): (r: Option<seq<OrderItem>>)
    ensures r.Some? <==> |items| < 2
    ensures r.Some? ==> |r.value| <= |items|
  {
    ReorderAsWrittenFails(items);
    match ReorderAsWritten(items)
    case NullDereference(_) => None
    case Completed(reordered) => Some(ConvertItems(conv, reordered))
  }

  /** For distinct ids: one order item per quote item, and every item of the
      parents-first part whose parent is in the quote is converted with the
      order item of that parent, which precedes it. */
  lemma ResolveItemsLinksParents(conv: ItemConverter, items: seq<QuoteItem>)
    requires DistinctIds(items)
    ensures |OrderedItems(items)| == |items|
    ensures |ResolveItems(conv, items)| == |items|
    ensures var all := OrderedItems(items);
      forall k, j :: 0 <= k < |ParentsFirstOrder(items).ordered| && 0 <= j < |all| && all[k].parentId == Some(all[j].id) ==>
        j < k && ResolveItems(conv, items)[k] == conv(all[k], Some(ResolveItems(conv, items)[j]))
  {
    var all := OrderedItems(items);
    ParentsFirstOrderSound(items);
    assert |all| == |items| by {
      assert |multiset(all)| == |multiset(items)|;
    }
    ConversionLoopMatchesLinking(conv, all);
    LinkedToEarlierParent(conv, all);
    OrderedPartParentsPrecede(items);
  }

  /** In the ordered items, a parent of an item of the parents-first part
      comes before it. */
  lemma OrderedPartParentsPrecede(items: seq<QuoteItem>)
    ensures var all := OrderedItems(items);
      forall k, j :: 0 <= k < |ParentsFirstOrder(items).ordered| && 0 <= j < |all| && all[k].parentId == Some(all[j].id) ==> j < k
  {
    var all := OrderedItems(items);
    var order := ParentsFirstOrder(items);
    ParentsFirstOrderSound(items);
    forall k, j | 0 <= k < |order.ordered| && 0 <= j < |all| && all[k].parentId == Some(all[j].id)
      ensures j < k
    {
      assert all[k] == order.ordered[k];
      if j >= |order.ordered| {
        var b := j - |order.ordered|;
        assert all[j] == order.blocked[b];
        ParentAmongIff(order.blocked, order.ordered[k]);
      } else {
        assert all[j] == order.ordered[j];
      }
    }
  }

  /** On a parents-first sequence of distinct ids the reordering changes
      nothing, and resolving is the conversion loop alone. */
  lemma ResolveOrderedItems(conv: ItemConverter, items: seq<QuoteItem>)
    requires DistinctIds(items) && ParentsFirst(items)
    ensures ResolveItems(conv, items) == ConvertItems(conv, items)
    ensures ResolveItems(conv, items) == LinkedItems(conv, items)
  {
    ParentsFirstOrderKeepsOrderedInput(items);
    assert OrderedItems(items) == items;
    ConversionLoopMatchesLinking(conv, items);
  }

  /** As written, resolving two or more items fails; with fewer it agrees
      with the corrected resolver. */
  lemma ResolveItemsAsWrittenFails(conv: ItemConverter, items: seq<QuoteItem>)
    ensures |items| >= 2 ==> ResolveItemsAsWritten(conv, items).None?
    ensures |items| < 2 ==> ResolveItemsAsWritten(conv, items) == Some(ResolveItems(conv, items))
  {
    ReorderAsWrittenFails(items);
    if |items| < 2 {
      ParentsFirstOrderSound(items);
      if |items| == 1 {
        var o := ParentsFirstOrder(items);
        assert |multiset(OrderedItems(items))| == 1;
        assert OrderedItems(items)[0] in multiset(items);
        assert OrderedItems(items) == items;
      }
    }
  }
}

=== FILE: orders.dfy ===
/** The order-side records produced by the converters and assembled into an order. */
module Orders {
  import opened Common
  import opened Quotes

  /** The `address_type` option handed to the order-address converter:
      `'shipping'` or `'billing'`. */
  datatype AddressType = Shipping | Billing

  /** Converter outputs. Their contents are the converters' business. */
  datatype OrderFields = OrderFields(fields: map<string, string>)
  datatype OrderAddress = OrderAddress(fields: map<string, string>)
  datatype OrderPayment = OrderPayment(fields: map<string, string>)
  datatype OrderItem = OrderItem(fields: map<string, string>)

  /** The caller's `$orderData` overrides. */
  type OrderData = map<string, string>

  /** The value `OrderDataBuilder::create` yields: the converted base fields
      plus everything the workflow sets explicitly. `id` is assigned by
      placement, never by the workflow. */
  datatype Order = Order(
    id: Option<nat>,
    base: OrderFields,
    shippingAddress: Option<OrderAddress>,
    billingAddress: OrderAddress,
    addresses: seq<OrderAddress>,
    payments: seq<OrderPayment>,
    items: seq<OrderItem>,
    customerId: Option<CustomerId>,
    quoteId: QuoteId)

  /** The address list is the shipping address (when there is one) followed by
      the billing address. */
  predicate AddressesConsistent(o: Order)
  {
    o.addresses ==
      (if o.shippingAddress.Some? then [o.shippingAddress.value] else []) + [o.billingAddress]
  }
}

=== FILE: php_array.dfy ===
/** The part of PHP's ordered associative array that the item conversion loop
    relies on: `isset($a[$k]) ? $a[$k] : null`, `$a[$k] = $v` (which keeps the
    position of an existing key and appends a new one) and `array_values`. */
module PhpArray {
  import opened Common

  datatype Entry<K, V> = Entry(key: K, value: V)

  predicate HasKey<K(==), V>(a: seq<Entry<K, V>>, k: K)
  {
    exists i :: 0 <= i < |a| && a[i].key == k
  }

  predicate UniqueKeys<K(==), V>(a: seq<Entry<K, V>>)
  {
    forall i, j :: 0 <= i < j < |a| ==> a[i].key != a[j].key
  }

  /** The position of key `k`, if it is present. */
  function IndexOf<K(==), V>(a: seq<Entry<K, V>>, k: K): (r: Option<nat>)
    ensures r.Some? ==> r.value < |a| && a[r.value].key == k
    ensures r.Some? ==> forall i :: 0 <= i < r.value ==> a[i].key != k
    ensures r.None? <==> !HasKey(a, k)
  {
    if |a| == 0 then None
    else if a[0].key == k then Some(0)
    else
      match IndexOf(a[1..], k)
      case None => (assert forall i :: 0 < i < |a| ==> a[i] == a[1..][i - 1]; None)
      case Some(i) => Some(i + 1)
  }

  /** `isset($a[$k]) ? $a[$k] : null`, for values that are never null. */
  function Get<K(==), V>(a: seq<Entry<K, V>>, k: K): (r: Option<V>)
    ensures r.Some? <==> HasKey(a, k)
    ensures UniqueKeys(a) ==> forall i :: 0 <= i < |a| && a[i].key == k ==> r == Some(a[i].value)
  {
    match IndexOf(a, k)
    case None => None
    case Some(i) => Some(a[i].value)
  }

  /** The first position of a key is determined by where the key occurs. */
  lemma IndexOfByPositions<K, V>(a: seq<Entry<K, V>>, b: seq<Entry<K, V>>, k: K)
    requires |a| <= |b|
    requires forall i :: 0 <= i < |a| ==> (a[i].key == k <==> b[i].key == k)
    requires HasKey(b, k) ==> HasKey(a, k)
    ensures IndexOf(a, k) == IndexOf(b, k)
  {
  }

  /** `$a[$k] = $v`. */
  function Set<K(==,!new), V>(a: seq<Entry<K, V>>, k: K, v: V): (r: seq<Entry<K, V>>)
    ensures HasKey(a, k) ==> |r| == |a|
    ensures HasKey(a, k) ==> forall i :: 0 <= i < |a| ==> r[i].key == a[i].key
    ensures |a| <= |r|
    ensures forall i :: 0 <= i < |a| && a[i].key != k ==> r[i] == a[i]
    ensures UniqueKeys(a) ==> UniqueKeys(r)
    ensures !HasKey(a, k) ==> r == a + [Entry(k, v)]
    ensures Get(r, k) == Some(v)
    ensures forall k' :: k' != k ==> Get(r, k') == Get(a, k')
  {
    match IndexOf(a, k)
    case None =>
      var r := a + [Entry(k, v)];
      assert r[|a|].key == k;
      assert IndexOf(r, k) == Some(|a|);
      assert forall k' :: k' != k ==> IndexOf(r, k') == IndexOf(a, k') by {
        forall k' | k' != k
          ensures IndexOf(r, k') == IndexOf(a, k')
        {
          IndexOfByPositions(a, r, k');
        }
      }
      r
    case Some(i) =>
      var r := a[i := Entry(k, v)];
      assert r[i].key == k;
      assert IndexOf(r, k) == Some(i);
      assert forall k' :: k' != k ==> IndexOf(r, k') == IndexOf(a, k') by {
        forall k' | k' != k
          ensures IndexOf(r, k') == IndexOf(a, k')
        {
          IndexOfByPositions(r, a, k');
        }
      }
      r
  }

  /** `array_values($a)`. */
  function Values<K, V>(a: seq<Entry<K, V>>): (r: seq<V>)
    ensures |r| == |a|
    ensures forall i :: 0 <= i < |a| ==> r[i] == a[i].value
  {
    seq(|a|, i requires 0 <= i < |a| => a[i].value)
  }
}

=== FILE: quote_management.dfy ===
/** `QuoteManagement`: the quote submission workflow. Each operation returns
    its outcome, the quote as the operation leaves it, and the trace of what it
    did, in order. */
module QuoteManagement {
  import opened Common
  import opened Quotes
  import opened Orders
  import opened Events
  import opened Collaborators
  import opened ItemOrdering
  import opened ItemResolver

  datatype Step<+T> = Step(result: Result<T>, quote: Quote, trace: seq<Action>)

  /** No visible item of the quote is a nominal one. */
  predicate NoVisibleNominal(shown: QuoteItem -> bool, q: Quote)
  {
    forall k :: 0 <= k < |q.items| && IsVisible(shown, q.items[k]) ==> !q.items[k].nominal
  }

  /** `inactivateQuote`. */
  function InactivateQuote(q: Quote): (r: Quote)
    ensures !r.isActive
    ensures r.(isActive := q.isActive) == q
  {
    q.(isActive := false)
  }

  /** The loop of `deleteNominalItems` over the item list. */
  function PurgeNominal(shown: QuoteItem -> bool, items: seq<QuoteItem>): (r: seq<QuoteItem>)
    ensures |r| == |items|
    ensures forall k :: 0 <= k < |items| ==>
      (r[k].deleted <==> items[k].deleted || (IsVisible(shown, items[k]) && items[k].nominal))
    ensures forall k :: 0 <= k < |items| ==> r[k].(deleted := items[k].deleted) == items[k]
  {
    if |items| == 0 then []
    else
      var item := items[0];
      var head := if IsVisible(shown, item) && item.nominal then item.(deleted := true) else item;
      var tail := PurgeNominal(shown, items[1..]);
      assert forall k :: 0 < k < |items| ==> items[k] == items[1..][k - 1];
      [head] + tail
  }

  /** `deleteNominalItems`: marks exactly the visible nominal items deleted,
      and changes nothing else. */
  function DeleteNominalItems(shown: QuoteItem -> bool, q: Quote): (r: Quote)
    ensures r.(items := q.items) == q
    ensures |r.items| == |q.items|
    ensures forall k :: 0 <= k < |q.items| ==>
      (r.items[k].deleted <==> q.items[k].deleted || (IsVisible(shown, q.items[k]) && q.items[k].nominal))
    ensures forall k :: 0 <= k < |q.items| ==> r.items[k].(deleted := q.items[k].deleted) == q.items[k]
    ensures NoVisibleNominal(shown, r)
  {
    var r := q.(items := PurgeNominal(shown, q.items));
    assert forall k :: 0 <= k < |q.items| && !r.items[k].deleted ==> r.items[k] == q.items[k];
    r
  }

  /** `submitNominalItems`: validate, dispatch the nominal-items event,
      inactivate the quote, then purge its visible nominal items. */
  function SubmitNominalItems(env: Env, q: Quote): (s: Step<()>)
    ensures |s.trace| > 0 && s.trace[0] == Validate(q)
    ensures env.validate(q).Some? ==>
      s.result == Err(env.validate(q).value) && s.quote == q && Dispatched(s.trace) == []
    ensures env.validate(q).None? ==>
      && s.result.Ok?
      && Dispatched(s.trace) == [Event(NominalItems, q, None)]
      && !s.quote.isActive
      && NoVisibleNominal(env.shown, s.quote)
      && s.quote == DeleteNominalItems(env.shown, q).(isActive := false)
  {
    match env.validate(q)
    case Some(e) => Step(Err(e), q, [Validate(q)])
    case None =>
      var trace := [Validate(q), Dispatch(Event(NominalItems, q, None))];
      assert Dispatched(trace) == [Event(NominalItems, q, None)] by {
        assert trace[1..][1..] == [];
      }
      Step(Ok(()), DeleteNominalItems(env.shown, InactivateQuote(q)), trace)
  }

  /** `submit`: returns `Ok(None)` for "no order" (PHP `null`), or hands the
      purged quote to `submitOrder`. The catch at lines 94-96 rethrows
      unchanged, so it is plain propagation here. */
  function Submit(env: Env, q: Quote, orderData: OrderData): (s: Step<Option<Order>>)
    ensures |s.trace| > 0 && s.trace[0] == Validate(q)
    ensures env.validate(q).Some? ==> s == Step(Err(env.validate(q).value), q, [Validate(q)])
    ensures env.validate(q).None? ==> !s.quote.isActive
    ensures s.result == Ok(None) <==>
      env.validate(q).None? && AllVisibleItems(env.shown, SubmitNominalItems(env, q).quote) == []
  {
    var nominal := SubmitNominalItems(env, q);
    if nominal.result.Err? then
      Step(Err(nominal.result.error), nominal.quote, nominal.trace)
    else if AllVisibleItems(env.shown, nominal.quote) == [] then
      Step(Ok(None), InactivateQuote(nominal.quote), nominal.trace)
    else
      var order := SubmitOrder(env, nominal.quote, orderData);
      var result := match order.result
        case Ok(placed) => Ok(Some(placed))
        case Err(e) => Err(e);
      Step(result, order.quote, nominal.trace + order.trace)
  }

  /** The quote `submitOrder` builds the order from: purged of visible nominal
      items and, unless the checkout is a guest checkout, with the customer
      that `populateCustomerInfo` leaves on it. */
  function PreparedQuote(env: Env, q: Quote): (r: Quote)
    ensures r.(customer := q.customer, items := q.items) == q
    ensures r.items == DeleteNominalItems(env.shown, q).items
    ensures q.isGuest ==> r.customer == q.customer
    ensures !q.isGuest ==> r.customer == env.populateCustomerInfo(DeleteNominalItems(env.shown, q))
    ensures NoVisibleNominal(env.shown, r)
  {
    var purged := DeleteNominalItems(env.shown, q);
    if purged.isGuest then purged
    else purged.(customer := env.populateCustomerInfo(purged))
  }

  /** Lines 134-164: the order assembled from a prepared quote. */
  function BuildOrder(env: Env, q: Quote, orderData: OrderData): (o: Order)
    ensures o.id.None?
    ensures AddressesConsistent(o)
    ensures o.shippingAddress.None? <==> q.isVirtual
    ensures q.isVirtual ==>
      && o.base == env.addressToOrder(q.billingAddress, orderData)
      && o.addresses == [env.addressToOrderAddress(q.billingAddress, Billing)]
    ensures !q.isVirtual ==>
      && o.base == env.addressToOrder(q.shippingAddress, orderData)
      && o.addresses == [env.addressToOrderAddress(q.shippingAddress, Shipping),
                         env.addressToOrderAddress(q.billingAddress, Billing)]
    ensures o.payments == [env.paymentToOrderPayment(q.payment)]
    ensures o.items == ResolveItems(env.itemToOrderItem, AllItems(q))
    ensures o.customerId.Some? <==> q.customer.Some?
    ensures q.customer.Some? ==> o.customerId == Some(q.customer.value.id)
    ensures o.quoteId == q.id
  {
    var primary := if q.isVirtual then q.billingAddress else q.shippingAddress;
    var shipping: Option<OrderAddress> :=
      if q.isVirtual then None
      else Some(env.addressToOrderAddress(q.shippingAddress, Shipping));
    var billing := env.addressToOrderAddress(q.billingAddress, Billing);
    var addresses := (if shipping.Some? then [shipping.value] else []) + [billing];
    Order(
      id := None,
      base := env.addressToOrder(primary, orderData),
      shippingAddress := shipping,
      billingAddress := billing,
      addresses := addresses,
      payments := [env.paymentToOrderPayment(q.payment)],
      items := ResolveItems(env.itemToOrderItem, AllItems(q)),
      customerId := match q.customer
        case Some(c) => Some(c.id)
        case None => None,
      quoteId := q.id)
  }

  /** `submitOrder`: purge and re-validate, populate the customer, build the
      order, dispatch `submit_before`, place it, and report the outcome. */
  function SubmitOrder(env: Env, q: Quote, orderData: OrderData): (s: Step<Order>)
    ensures |s.trace| > 0 && s.trace[0] == Validate(DeleteNominalItems(env.shown, q))
    ensures env.validate(DeleteNominalItems(env.shown, q)).Some? ==>
      && s.result == Err(env.validate(DeleteNominalItems(env.shown, q)).value)
      && s.quote == DeleteNominalItems(env.shown, q)
      && Dispatched(s.trace) == []
    ensures !q.isActive ==> !s.quote.isActive
    ensures s.result.Ok? ==> !s.quote.isActive
    ensures s.result.Err? ==> s.quote.isActive == q.isActive
  {
    var purged := DeleteNominalItems(env.shown, q);
    match env.validate(purged)
    case Some(e) => Step(Err(e), purged, [Validate(purged)])
    case None =>
      var prepared := PreparedQuote(env, q);
      var populate := if purged.isGuest then [] else [PopulateCustomerInfo(purged)];
      var order := BuildOrder(env, prepared, orderData);
      var before := [Validate(purged)] + populate
        + [Dispatch(Event(SubmitBefore, prepared, Some(order))), Place(order)];
      match env.place(order)
      case Ok(placed) =>
        var done := InactivateQuote(prepared);
        Step(Ok(placed), done, before + [Dispatch(Event(SubmitSuccess, done, Some(placed)))])
      case Err(e) =>
        Step(Err(e), prepared, before + [Dispatch(Event(SubmitFailure, prepared, Some(order)))])
  }

  /** The order `submitOrder` hands to placement. */
  function PendingOrder(env: Env, q: Quote, orderData: OrderData): Order
  {
    BuildOrder(env, PreparedQuote(env, q), orderData)
  }
}

=== FILE: quotes.dfy ===
/** The quote (shopping cart) aggregate as the submission workflow sees it. */
module Quotes {
  import opened Common

  type ItemId = nat
  type QuoteId = nat
  type CustomerId = nat

  /** A quote address; its fields only matter to the address converters. */
  datatype Address = Address(fields: map<string, string>)

  /** The quote's payment record; only the payment converter reads it. */
  datatype Payment = Payment(fields: map<string, string>)

  datatype Customer = Customer(id: CustomerId, email: string)

  /** A cart line. `parentId` refers to another item of the same quote by id;
      `deleted` is the soft-delete flag set by `isDeleted(true)`. */
  datatype QuoteItem = QuoteItem(
    id: ItemId,
    parentId: Option<ItemId>,
    nominal: bool,
    deleted: bool,
    sku: string)

  datatype Quote = Quote(
    id: QuoteId,
    items: seq<QuoteItem>,
    billingAddress: Address,
    shippingAddress: Address,
    payment: Payment,
    customer: Option<Customer>,
    isVirtual: bool,
    isActive: bool,
    isGuest: bool)

  /** Membership in `getAllVisibleItems`. The quote class is not part of this
      model: its own filter is the abstract `shown`, and a deleted item is
      never visible, whatever `shown` says. */
  predicate IsVisible(shown: QuoteItem -> bool, item: QuoteItem)
  {
    !item.deleted && shown(item)
  }

  /** `getAllItems`: the items that are not marked deleted, in quote order. */
  function AllItems(q: Quote): (r: seq<QuoteItem>)
    ensures forall x :: x in r <==> x in q.items && !x.deleted
  {
    Filter(q.items, (x: QuoteItem) => !x.deleted)
  }

  /** `getAllVisibleItems`, in quote order. */
  function AllVisibleItems(shown: QuoteItem -> bool, q: Quote): (r: seq<QuoteItem>)
    ensures forall x :: x in r <==> x in q.items && IsVisible(shown, x)
  {
    Filter(q.items, (x: QuoteItem) => IsVisible(shown, x))
  }
}

=== FILE: submission_properties.dfy ===
/** Properties of the submission workflow that relate several operations or
    follow one path through it. */
module SubmissionProperties {
  import opened Common
  import opened Quotes
  import opened Orders
  import opened Events
  import opened Collaborators
  import opened ItemOrdering
  import opened ItemResolver
  import opened QuoteManagement

  // ---------------------------------------------------------------------------
  // Nominal-item purge
  // ---------------------------------------------------------------------------

  /** Purging twice is purging once: the defensive purge at the start of
      `submitOrder` changes nothing after `submitNominalItems`. */
  lemma DeleteNominalItemsIdempotent(shown: QuoteItem -> bool, q: Quote)
    ensures DeleteNominalItems(shown, DeleteNominalItems(shown, q)) == DeleteNominalItems(shown, q)
  {
  }

  /** After a successful `submitNominalItems` the purge in `submitOrder` is a
      no-op. */
  lemma RepurgeAfterNominalSubmitIsNoop(env: Env, q: Quote)
    requires env.validate(q).None?
    ensures DeleteNominalItems(env.shown, SubmitNominalItems(env, q).quote) == SubmitNominalItems(env, q).quote
  {
  }

  /** The items converted into an order never include a visible nominal item. */
  lemma NominalItemsExcluded(env: Env, q: Quote)
    ensures forall x :: x in AllItems(PreparedQuote(env, q)) ==> !(env.shown(x) && x.nominal)
  {
  }

  /** Only visible nominal items are purged: a live nominal item that the
      visibility filter hides is still among the items converted into the
      order. */
  lemma HiddenNominalItemConverted(env: Env, q: Quote, x: QuoteItem)
    requires x in q.items && !x.deleted && x.nominal && !env.shown(x)
    ensures x in AllItems(PreparedQuote(env, q))
  {
    var k :| 0 <= k < |q.items| && q.items[k] == x;
    assert PreparedQuote(env, q).items[k] == x;
  }

  // ---------------------------------------------------------------------------
  // submit: the "no order" outcome
  // ---------------------------------------------------------------------------

  /** When nothing visible is left after the purge, `submit` produces no order,
      the quote ends inactive, only the nominal-items event is dispatched and
      nothing is placed: `submitOrder` is never reached. The inactivation at
      line 98 finds the quote already inactive. */
  lemma SubmitWithoutVisibleItems(env: Env, q: Quote, orderData: OrderData)
    requires env.validate(q).None?
    requires AllVisibleItems(env.shown, DeleteNominalItems(env.shown, q)) == []
    ensures Submit(env, q, orderData).result == Ok(None)
    ensures !Submit(env, q, orderData).quote.isActive
    ensures Submit(env, q, orderData).quote == SubmitNominalItems(env, q).quote
    ensures Dispatched(Submit(env, q, orderData).trace) == [Event(NominalItems, q, None)]
    ensures EventNames(Dispatched(Submit(env, q, orderData).trace))
         == ["sales_model_service_quote_submit_nominal_items"]
    ensures forall a :: a in Submit(env, q, orderData).trace ==> !a.Place?
  {
  }

  // ---------------------------------------------------------------------------
  // submitOrder: placement outcome
  // ---------------------------------------------------------------------------

  /** On successful placement `submitOrder` dispatches `submit_before` with the
      built order and then `submit_success` with the placed one, exactly once
      each, returns the placed order and leaves the quote inactive. */
  lemma SubmitOrderPlaced(env: Env, q: Quote, orderData: OrderData, placed: Order)
    requires env.validate(DeleteNominalItems(env.shown, q)).None?
    requires env.place(PendingOrder(env, q, orderData)) == Ok(placed)
    ensures var s := SubmitOrder(env, q, orderData);
      var prepared := PreparedQuote(env, q);
      && s.result == Ok(placed)
      && !s.quote.isActive
      && s.quote == InactivateQuote(prepared)
      && Dispatched(s.trace) == [
           Event(SubmitBefore, prepared, Some(PendingOrder(env, q, orderData))),
           Event(SubmitSuccess, InactivateQuote(prepared), Some(placed))]
      && s.trace[|s.trace| - 2] == Place(PendingOrder(env, q, orderData))
  {
    var purged := DeleteNominalItems(env.shown, q);
    var prepared := PreparedQuote(env, q);
    var order := PendingOrder(env, q, orderData);
    var populate := if purged.isGuest then [] else [PopulateCustomerInfo(purged)];
    var trace := [Validate(purged)] + populate
      + [Dispatch(Event(SubmitBefore, prepared, Some(order))), Place(order)]
      + [Dispatch(Event(SubmitSuccess, InactivateQuote(prepared), Some(placed)))];
    assert SubmitOrder(env, q, orderData).trace == trace;
    DispatchedOfSubmitOrderTrace(purged, populate,
      Event(SubmitBefore, prepared, Some(order)), order,
      Event(SubmitSuccess, InactivateQuote(prepared), Some(placed)));
  }

  /** When placement throws, `submitOrder` dispatches `submit_before` and then
      `submit_failure`, both with the pre-placement order, exactly once each,
      propagates the same error and leaves `isActive` as it found it. */
  lemma SubmitOrderPlacementFailed(env: Env, q: Quote, orderData: OrderData, e: Error)
    requires env.validate(DeleteNominalItems(env.shown, q)).None?
    requires env.place(PendingOrder(env, q, orderData)) == Err(e)
    ensures var s := SubmitOrder(env, q, orderData);
      var prepared := PreparedQuote(env, q);
      && s.result == Err(e)
      && s.quote.isActive == q.isActive
      && s.quote == prepared
      && Dispatched(s.trace) == [
           Event(SubmitBefore, prepared, Some(PendingOrder(env, q, orderData))),
           Event(SubmitFailure, prepared, Some(PendingOrder(env, q, orderData)))]
  {
    var purged := DeleteNominalItems(env.shown, q);
    var prepared := PreparedQuote(env, q);
    var order := PendingOrder(env, q, orderData);
    var populate := if purged.isGuest then [] else [PopulateCustomerInfo(purged)];
    var trace := [Validate(purged)] + populate
      + [Dispatch(Event(SubmitBefore, prepared, Some(order))), Place(order)]
      + [Dispatch(Event(SubmitFailure, prepared, Some(order)))];
    assert SubmitOrder(env, q, orderData).trace == trace;
    DispatchedOfSubmitOrderTrace(purged, populate,
      Event(SubmitBefore, prepared, Some(order)), order,
      Event(SubmitFailure, prepared, Some(order)));
  }

  /** The events of a `submitOrder` trace that reached placement. */
  lemma DispatchedOfSubmitOrderTrace(purged: Quote, populate: seq<Action>, before: Event, order: Order, after: Event)
    requires forall a :: a in populate ==> a.PopulateCustomerInfo?
    ensures Dispatched([Validate(purged)] + populate + [Dispatch(before), Place(order)] + [Dispatch(after)])
         == [before, after]
  {
    DispatchedAppend([Validate(purged)] + populate + [Dispatch(before), Place(order)], [Dispatch(after)]);
    DispatchedAppend([Validate(purged)] + populate, [Dispatch(before), Place(order)]);
    DispatchedAppend([Validate(purged)], populate);
    NoEventsAmongPopulate(populate);
    assert Dispatched([Dispatch(before), Place(order)]) == [before] by {
      assert [Dispatch(before), Place(order)][1..] == [Place(order)];
      assert [Place(order)][1..] == [];
    }
    assert Dispatched([Dispatch(after)]) == [after] by {
      assert [Dispatch(after)][1..] == [];
    }
    assert Dispatched([Validate(purged)]) == [] by {
      assert [Validate(purged)][1..] == [];
    }
  }

  lemma NoEventsAmongPopulate(populate: seq<Action>)
    requires forall a :: a in populate ==> a.PopulateCustomerInfo?
    ensures Dispatched(populate) == []
  {
  }

  /** `populateCustomerInfo` is called exactly when the checkout is not a guest
      checkout; the order carries a customer id exactly when the quote has a
      customer after that step, and always the quote's id. */
  lemma CustomerLinkage(env: Env, q: Quote, orderData: OrderData)
    requires env.validate(DeleteNominalItems(env.shown, q)).None?
    ensures (exists a :: a in SubmitOrder(env, q, orderData).trace && a.PopulateCustomerInfo?) <==> !q.isGuest
    ensures PendingOrder(env, q, orderData).customerId.Some? <==> PreparedQuote(env, q).customer.Some?
    ensures PreparedQuote(env, q).customer.Some? ==>
      PendingOrder(env, q, orderData).customerId == Some(PreparedQuote(env, q).customer.value.id)
    ensures PendingOrder(env, q, orderData).quoteId == q.id
  {
    var purged := DeleteNominalItems(env.shown, q);
    var s := SubmitOrder(env, q, orderData);
    if !q.isGuest {
      assert s.trace[1] == PopulateCustomerInfo(purged);
    } else {
      forall a | a in s.trace
        ensures !a.PopulateCustomerInfo?
      {
      }
    }
  }

  // ---------------------------------------------------------------------------
  // submit: end to end
  // ---------------------------------------------------------------------------

  /** The quote `submit` hands to `submitOrder`. */
  function NominalSubmitted(env: Env, q: Quote): Quote
  {
    SubmitNominalItems(env, q).quote
  }

  /** A placed order: the trace holds the nominal-items event, then
      `submit_before`, then `submit_success`, one of each; the placed order is
      returned and the quote ends inactive. */
  lemma SubmitPlaced(env: Env, q: Quote, orderData: OrderData, placed: Order)
    requires env.validate(q).None?
    requires AllVisibleItems(env.shown, NominalSubmitted(env, q)) != []
    requires env.validate(DeleteNominalItems(env.shown, NominalSubmitted(env, q))).None?
    requires env.place(PendingOrder(env, NominalSubmitted(env, q), orderData)) == Ok(placed)
    ensures var s := Submit(env, q, orderData);
      var prepared := PreparedQuote(env, NominalSubmitted(env, q));
      && s.result == Ok(Some(placed))
      && !s.quote.isActive
      && Dispatched(s.trace) == [
           Event(NominalItems, q, None),
           Event(SubmitBefore, prepared, Some(PendingOrder(env, NominalSubmitted(env, q), orderData))),
           Event(SubmitSuccess, InactivateQuote(prepared), Some(placed))]
  {
    var q1 := NominalSubmitted(env, q);
    SubmitOrderPlaced(env, q1, orderData, placed);
    DispatchedAppend(SubmitNominalItems(env, q).trace, SubmitOrder(env, q1, orderData).trace);
  }

  /** A failed placement: the trace holds the nominal-items event, then
      `submit_before` and `submit_failure` with the same pre-placement order,
      and the error is the placement's own. The caller sees an inactive quote,
      because `submitNominalItems` inactivated it before `submitOrder` ran. */
  lemma SubmitPlacementFailed(env: Env, q: Quote, orderData: OrderData, e: Error)
    requires env.validate(q).None?
    requires AllVisibleItems(env.shown, NominalSubmitted(env, q)) != []
    requires env.validate(DeleteNominalItems(env.shown, NominalSubmitted(env, q))).None?
    requires env.place(PendingOrder(env, NominalSubmitted(env, q), orderData)) == Err(e)
    ensures var s := Submit(env, q, orderData);
      var prepared := PreparedQuote(env, NominalSubmitted(env, q));
      var order := PendingOrder(env, NominalSubmitted(env, q), orderData);
      && s.result == Err(e)
      && !s.quote.isActive
      && Dispatched(s.trace) == [
           Event(NominalItems, q, None),
           Event(SubmitBefore, prepared, Some(order)),
           Event(SubmitFailure, prepared, Some(order))]
  {
    var q1 := NominalSubmitted(env, q);
    SubmitOrderPlacementFailed(env, q1, orderData, e);
    DispatchedAppend(SubmitNominalItems(env, q).trace, SubmitOrder(env, q1, orderData).trace);
  }

  /** The names of three events, in order. */
  lemma EventNamesOfThree(a: Event, b: Event, c: Event)
    ensures EventNames([a, b, c]) == [a.name.Name(), b.name.Name(), c.name.Name()]
  {
  }

  /** The wire names of a submission's three events. */
  lemma NamesSpelled(names: seq<string>, outcome: EventName)
    requires names == [NominalItems.Name(), SubmitBefore.Name(), outcome.Name()]
    ensures outcome == SubmitSuccess ==> names == [
      "sales_model_service_quote_submit_nominal_items",
      "sales_model_service_quote_submit_before",
      "sales_model_service_quote_submit_success"]
    ensures outcome == SubmitFailure ==> names == [
      "sales_model_service_quote_submit_nominal_items",
      "sales_model_service_quote_submit_before",
      "sales_model_service_quote_submit_failure"]
  {
  }

  /** The event names a submission that reaches placement sends out, in
      order: the nominal-items event, `submit_before`, then `submit_success`
      or `submit_failure` according to the placement's outcome. */
  lemma SubmitEventNames(env: Env, q: Quote, orderData: OrderData)
    requires env.validate(q).None?
    requires AllVisibleItems(env.shown, NominalSubmitted(env, q)) != []
    requires env.validate(DeleteNominalItems(env.shown, NominalSubmitted(env, q))).None?
    ensures env.place(PendingOrder(env, NominalSubmitted(env, q), orderData)).Ok? ==>
      EventNames(Dispatched(Submit(env, q, orderData).trace)) == [
        "sales_model_service_quote_submit_nominal_items",
        "sales_model_service_quote_submit_before",
        "sales_model_service_quote_submit_success"]
    ensures env.place(PendingOrder(env, NominalSubmitted(env, q), orderData)).Err? ==>
      EventNames(Dispatched(Submit(env, q, orderData).trace)) == [
        "sales_model_service_quote_submit_nominal_items",
        "sales_model_service_quote_submit_before",
        "sales_model_service_quote_submit_failure"]
  {
    var q1 := NominalSubmitted(env, q);
    var prepared := PreparedQuote(env, q1);
    var order := PendingOrder(env, q1, orderData);
    var d := Dispatched(Submit(env, q, orderData).trace);
    match env.place(order)
    case Ok(placed) =>
      SubmitPlaced(env, q, orderData, placed);
      var success := Event(SubmitSuccess, InactivateQuote(prepared), Some(placed));
      assert d == [Event(NominalItems, q, None), Event(SubmitBefore, prepared, Some(order)), success];
      EventNamesOfThree(Event(NominalItems, q, None), Event(SubmitBefore, prepared, Some(order)), success);
      NamesSpelled(EventNames(d), SubmitSuccess);
    case Err(e) =>
      SubmitPlacementFailed(env, q, orderData, e);
      var failure := Event(SubmitFailure, prepared, Some(order));
      assert d == [Event(NominalItems, q, None), Event(SubmitBefore, prepared, Some(order)), failure];
      EventNamesOfThree(Event(NominalItems, q, None), Event(SubmitBefore, prepared, Some(order)), failure);
      NamesSpelled(EventNames(d), SubmitFailure);
  }

  /** No operation of the workflow turns an inactive quote active again. */
  lemma NoReactivation(env: Env, q: Quote, orderData: OrderData)
    ensures SubmitNominalItems(env, q).quote.isActive ==> q.isActive
    ensures SubmitOrder(env, q, orderData).quote.isActive ==> q.isActive
    ensures Submit(env, q, orderData).quote.isActive ==> q.isActive
  {
  }

  // ---------------------------------------------------------------------------
  // The order's items
  // ---------------------------------------------------------------------------

  /** For a quote whose live items have distinct ids and list parents first,
      the order holds one item per live quote item, in quote order, each child
      converted with its parent's order item. */
  lemma OrderItemsFollowQuoteItems(env: Env, q: Quote, orderData: OrderData)
    requires DistinctIds(AllItems(q)) && ParentsFirst(AllItems(q))
    ensures BuildOrder(env, q, orderData).items == LinkedItems(env.itemToOrderItem, AllItems(q))
    ensures |BuildOrder(env, q, orderData).items| == |AllItems(q)|
  {
    ResolveOrderedItems(env.itemToOrderItem, AllItems(q));
  }

  /** Linking the two-item example: the parent is converted without parent,
      the child with the parent's order item. */
  lemma TwoItemLinked(conv: ItemConverter, parent: QuoteItem, child: QuoteItem)
    requires parent.parentId.None? && child.parentId == Some(parent.id)
    ensures LinkedItems(conv, [parent, child]) == [conv(parent, None), conv(child, Some(conv(parent, None)))]
  {
  }

  /** The two-item example: a non-virtual guest quote with item 10 and its
      child 11 becomes an order with the shipping then the billing address,
      item 10 converted without parent, item 11 converted with item 10's order
      item as parent, the quote's id and no customer id. */
  lemma TwoItemExample(env: Env, orderData: OrderData, billing: Address, shipping: Address, payment: Payment)
    ensures
      var parent := QuoteItem(10, None, false, false, "bundle");
      var child := QuoteItem(11, Some(10), false, false, "option");
      var q := Quote(1, [parent, child], billing, shipping, payment, None, false, true, true);
      var o := BuildOrder(env, q, orderData);
      var conv := env.itemToOrderItem;
      && o.addresses == [env.addressToOrderAddress(shipping, Shipping), env.addressToOrderAddress(billing, Billing)]
      && o.items == [conv(parent, None), conv(child, Some(conv(parent, None)))]
      && o.quoteId == 1
      && o.customerId == None
  {
    var parent := QuoteItem(10, None, false, false, "bundle");
    var child := QuoteItem(11, Some(10), false, false, "option");
    var q := Quote(1, [parent, child], billing, shipping, payment, None, false, true, true);
    var items := [parent, child];
    assert AllItems(q) == items by {
      assert [parent, child][1..] == [child];
      assert [child][1..] == [];
    }
    assert ParentsFirst(items);
    OrderItemsFollowQuoteItems(env, q, orderData);
    TwoItemLinked(env.itemToOrderItem, parent, child);
  }
}
